=== FILE: README.md ===
# Simple media player: playback state, controls and duration format

This project is a Dafny model of the playback core of a small Nuxt audio
playlist player. It has three parts:

- **The playlist store** (`playlist_store.dfy`, module `PlaylistStore`).
  It holds the playlist, the current track, the playback time, the volume
  and the audio state ('play', 'pause' or 'stop'). The browser's local
  storage holds a mirror of it under the keys `currentTrackId`,
  `currentTrackTime`, `currentTrackVolume` and `audioState`. Each store
  action is a pure function from a `Session` (state plus storage) to the
  next `Session`.
- **The audio controls** (`audio_controls.dfy`, module `AudioControls`).
  These are the controller functions `play`, `pause`, `stop`, `next` and
  `previous`, the `track` and `volume` computeds, and the priming done by
  `initAudioPlayer`. The HTML audio element is a `Device` record: source,
  position, volume as an integer percent, and a playing flag. The
  controller keeps its own `audioState` ref, a cell separate from the
  store's. `next` and `previous` consult that ref.
- **`formatDuration`** (`duration.dfy`, module `Duration`). It prints whole
  seconds as `m:ss`. A parser `ParseDuration` reads that format back, and
  the round-trip lemmas are stated against it.

`tracks.dfy` (module `Tracks`) holds what these parts share: `Track`,
`AudioState`, and the two lookups by track id that the store
and the controls perform (`find` and `findIndex`). `options.dfy` (module
`Options`) holds `Option`, the model of a value that may be `null` or
`undefined`.

The store getters `getPlaylist` and `getCurrentTrack` are the fields
`State.playlist` and `State.currentTrack`.

Some behaviour of the code is easy to misread; the model keeps it as the
code has it:

- `playTrack` (stores/usePlaylistStore.ts:54-61) resets only the stored
  time to 0; the in-memory `currentTime` keeps its value. `next` and
  `previous` switch tracks through `playTrack`, so they keep it too.
  `PlaylistStore.PlayTrackLeavesTimeStale` shows the two then disagree.
- `previous` on a track that is not in the playlist (index -1) goes to the
  *last* track. The formula `(i - 1 + N) mod N` holds only for found
  indices (`AudioControls.PrevIndexIsPredecessorMod`).
- `loadFromLocalStorage` (stores/usePlaylistStore.ts:39-44) changes the
  current track only when the stored id resolves in the playlist; otherwise
  it leaves the current track as it was, even when a freshly fetched
  playlist no longer contains it (`PlaylistStore.FetchThenLoadKeepsStaleTrack`).
- `play` also writes the volume to storage, because it goes through the
  volume setter (composables/useAudioControls.ts:70).
- `initAudioPlayer` primes the element only when the restored volume is
  non-zero, because its guard tests the volume for truthiness
  (`AudioControls.InitSkipsPrimingWhenMuted`).
- The element accepts a volume only from 0 to 100 percent (a fraction in
  [0, 1]); assigning another level throws. The store never clamps, so a
  volume of 150 is first recorded by the store, and then the volume setter,
  `play` and `initAudioPlayer` throw at their volume assignment. The model
  returns the state reached at that point (`AudioControls.PlayRejectsOutOfRangeVolume`).

## Model

| member | source | states |
|---|---|---|
| Tracks.FindIndex | composables/useAudioControls.ts:96 | `findIndex` by id gives the first index whose track has that id, or -1 exactly when no track has it |
| Tracks.Find | stores/usePlaylistStore.ts:40 | `find` by id gives nothing exactly when no track has that id; otherwise it gives the first track with that id |
| PlaylistStore.FetchPlaylist | stores/usePlaylistStore.ts:31-33 | the playlist is replaced by the fetched one; the current track (even a stale one), time, volume, state and storage are unchanged |
| PlaylistStore.LoadFromLocalStorage | stores/usePlaylistStore.ts:34-52 | a non-empty stored id that names a track selects the first such track, otherwise the current track is kept; a stored time or volume is adopted and an absent one keeps the in-memory value; the audio state and playlist are untouched and nothing is written |
| PlaylistStore.PlayTrack | stores/usePlaylistStore.ts:54-61 | the track becomes current and the state Playing; storage gets its id, time 0 and Playing; in-memory time, volume, playlist and stored volume are unchanged |
| PlaylistStore.PauseTrack | stores/usePlaylistStore.ts:63-66 | only the audio state changes, to Paused, in memory and in storage |
| PlaylistStore.StopTrack | stores/usePlaylistStore.ts:68-74 | time becomes 0 and the state Stopped, both in memory and in storage; track, volume, playlist, stored id and stored volume are unchanged |
| PlaylistStore.UpdateCurrentVolume | stores/usePlaylistStore.ts:76-80 | the volume becomes exactly the given value in memory and in storage; nothing else changes |
| PlaylistStore.UpdateCurrentTime | stores/usePlaylistStore.ts:82-86 | the time becomes exactly the given value in memory and in storage; nothing else changes |
| PlaylistStore.RestoreWithoutSavedKeys | stores/usePlaylistStore.ts:23-29 | a new store that restores from empty storage keeps the defaults: no track, time 0, volume 40, paused |
| PlaylistStore.RestoreUnknownTrackId | stores/usePlaylistStore.ts:39-44 | a stored id that is absent from a freshly fetched playlist leaves the restored store without a current track |
| PlaylistStore.UpdateCurrentTimeIdempotent | stores/usePlaylistStore.ts:82-86 | setting the same time twice is the same as setting it once |
| PlaylistStore.ActionsKeepConsistent | stores/usePlaylistStore.ts:34-86 | load, pause, stop and the volume and time updates keep the current track inside the playlist; playTrack does too when its track is in the playlist |
| PlaylistStore.RestoreAfterPlayTrack | stores/usePlaylistStore.ts:54-61 | after restoring from the storage playTrack wrote, a later session whose playlist has distinct ids and contains the track gets that track back at time 0, provided the track's id is non-empty (an empty stored id is falsy and never restored) |
| PlaylistStore.RestoreAfterUpdateTime | stores/usePlaylistStore.ts:82-86 | any later session that restores from the storage updateCurrentTime wrote gets that time |
| PlaylistStore.RestoreAfterUpdateVolume | stores/usePlaylistStore.ts:76-80 | any later session that restores from the storage updateCurrentVolume wrote gets that volume |
| PlaylistStore.FetchThenLoadKeepsStaleTrack | stores/usePlaylistStore.ts:31-44 | fetching a playlist without the current track and restoring from storage whose id does not resolve leaves that track current, outside the playlist |
| PlaylistStore.FetchThenLoadResolvesStoredId | stores/usePlaylistStore.ts:31-44 | fetching a playlist and restoring from storage whose id resolves in it leaves the current track inside the new playlist |
| PlaylistStore.PlayTrackLeavesTimeStale | stores/usePlaylistStore.ts:54-61 | after playTrack the stored time is 0 while the in-memory time keeps any non-zero value it had |
| AudioControls.EffectiveTrack | composables/useAudioControls.ts:31 | the effective track is the store's current track if set, else the first track of the playlist, and absent only when both are missing |
| AudioControls.EffectiveTrackInPlaylist | composables/useAudioControls.ts:31 | in a consistent state with a non-empty playlist the effective track exists and belongs to the playlist |
| AudioControls.SetVolume | composables/useAudioControls.ts:35-40 | the setter performs updateCurrentVolume with the value; a mounted element (and only a mounted one) is set to the same level when it lies in 0..100, and otherwise rejects it and keeps its level |
| AudioControls.SetThenGetVolume | composables/useAudioControls.ts:33-41 | reading the volume after setting it returns the value set, and storage holds that value |
| AudioControls.InitAudioPlayer | composables/useAudioControls.ts:44-51 | the store is restored from storage. When there is an element, a track and a non-zero volume, the element is loaded with the track's audio, which stops it at position 0; if the volume lies in 0..100 it then gets that volume and the restored time, and otherwise the volume assignment throws and it stays stopped at 0 with its old volume. Otherwise the element is untouched |
| AudioControls.InitSkipsPrimingWhenMuted | composables/useAudioControls.ts:47 | with a restored volume of 0 initialisation leaves the element untouched |
| AudioControls.Play | composables/useAudioControls.ts:64-76 | without an element or a track nothing changes. Otherwise the controller state becomes Playing and the element is loaded with the effective track (which stops it) and seeked to the store's time. When the store volume lies outside 0..100 the call stops there: the element stays stopped with its old volume, and the store only records its own volume again. Otherwise the element is started with that volume and the store performs playTrack on the effective track after recording the volume: the in-memory time is kept, the stored time is 0 and the stored state is Playing |
| AudioControls.Pause | composables/useAudioControls.ts:78-83 | both states become Paused; the store performs pauseTrack; a mounted element stops and keeps its source, position and volume |
| AudioControls.Stop | composables/useAudioControls.ts:85-93 | without an element or a track nothing changes; otherwise the element stops at position 0 with its source and volume kept, the controller state is Stopped and the store performs stopTrack |
| AudioControls.PlayRejectsOutOfRangeVolume | composables/useAudioControls.ts:64-74 | with a store volume above 100 play throws at the volume assignment: the element, already loaded, is stopped and not started, the current track and stored id are unchanged, and the stored volume is that value |
| AudioControls.InitThenPlayResumes | composables/useAudioControls.ts:44-74 | after initialisation restores a saved time, play starts the element at that time; the stored time becomes 0 and the in-memory time stays the saved one |
| AudioControls.NextIndex | composables/useAudioControls.ts:96-101 | the successor index is always a valid index of the playlist, including for the not-found index -1 |
| AudioControls.NextIndexIsSuccessorMod | composables/useAudioControls.ts:96-101 | the successor index equals (i + 1) mod N, so the not-found index -1 goes to 0 |
| AudioControls.PrevIndex | composables/useAudioControls.ts:118-123 | the predecessor index is always a valid index; the not-found index -1 goes to the last index |
| AudioControls.PrevIndexIsPredecessorMod | composables/useAudioControls.ts:118-123 | for a found index the predecessor index equals (i - 1 + N) mod N |
| AudioControls.PrevUndoesNext | composables/useAudioControls.ts:96-123 | on found indices the predecessor and successor indices are mutual inverses |
| AudioControls.CurrentIndex | composables/useAudioControls.ts:96 | the index is -1 exactly when no track has the effective track's id; otherwise it is a valid index of a track with that id |
| AudioControls.LoadSource | composables/useAudioControls.ts:48 | assigning a source (as at lines 48, 67, 108 and 129) leaves the element stopped at position 0 with its volume kept |
| AudioControls.SwitchTo | composables/useAudioControls.ts:103-114 | the store performs playTrack on the chosen track; a mounted element is loaded with its audio, so it is stopped at position 0 with its volume kept, and it is playing afterwards exactly when playback is requested |
| AudioControls.Next | composables/useAudioControls.ts:95-115 | the track after the effective one (wrapping) becomes current through playTrack, so the stored time is 0 while the in-memory time is kept. A mounted element is loaded with its audio at position 0 and keeps its volume; it is playing afterwards exactly when the controller state is Playing or autoplay is requested |
| AudioControls.Previous | composables/useAudioControls.ts:117-136 | the track before the effective one (wrapping) becomes current through playTrack, so the stored time is 0 while the in-memory time is kept. A mounted element is loaded with its audio at position 0 and keeps its volume; it is playing afterwards exactly when the controller state is Playing |
| AudioControls.NextTimesIndex | composables/useAudioControls.ts:95-115 | with distinct ids, k calls of next (1 <= k <= N) starting from the track at index i select the track at index i + k, wrapping past the end |
| AudioControls.NextCycleReturns | composables/useAudioControls.ts:95-115 | with distinct ids, N calls of next come back to the effective track they started from |
| AudioControls.PreviousAfterNext | composables/useAudioControls.ts:95-136 | with distinct ids, previous right after next makes the original effective track current again |
| AudioControls.NextScenario | composables/useAudioControls.ts:95-105 | for playlist [A, B, C] with B current, next selects C and a second next wraps to A |
| AudioControls.ControlsKeepConsistent | composables/useAudioControls.ts:33-136 | initialisation, the volume setter, play, pause, stop, next and previous keep the current track inside the playlist |
| Duration.NatToString | utils/index.ts:6 | a number prints as a non-empty run of digits without a leading zero; it is one digit exactly below 10 |
| Duration.SecondsField | utils/index.ts:4 | the seconds field has at least two digits and begins with 0 exactly when the value is below 10 |
| Duration.SecondsFieldTwoDigits | utils/index.ts:4 | below 60 the zero-padded seconds field is exactly two digits and reads back as its value |
| Duration.FormatDuration | utils/index.ts:1-7 | the output is minutes, ':' and two digits. The minutes read back as seconds div 60 and have no leading zero; the two digits read back as seconds mod 60 |
| Duration.FormatDurationRoundTrip | utils/index.ts:1-7 | parsing the formatted string gives back the number of seconds (60 * m + ss) |
| Duration.FormatDurationInjective | utils/index.ts:1-7 | distinct whole durations are formatted as distinct strings |
| Duration.FormatDurationPadsSeconds | utils/index.ts:4 | 65 seconds formats as "1:05": a seconds value below 10 gets a leading zero |
| Duration.FormatDurationWholeMinutes | utils/index.ts:1-7 | 600 seconds formats as "10:00" |

## Left out

- Fetching the catalogue (composables/usePlaylist.ts) is network I/O. `PlaylistStore.FetchPlaylist` takes the fetched playlist as a parameter.
- The asynchronous `play()` of the audio element can be rejected. In `play` (composables/useAudioControls.ts:72) the rejection is caught and logged. In `next` and `previous` (:112, :133) it is not caught and becomes an unhandled rejection. In all three the model treats the call as setting the `playing` flag. The divergence a rejection leaves between the state and the element is host behaviour.
- In `play`, the computed `track` is read again after the awaited `play()`. The model assumes nothing else runs in between.
- The `timeupdate` and `loadedmetadata` listeners registered by `initAudioPlayer` are browser event wiring. The tick handler is just `UpdateCurrentTime`. The metadata handler formats the element's floating-point duration, and the `duration` ref it sets is not modelled.
- Element volume is a fraction in [0, 1] (`value / 100`). That is floating point, so the model keeps the volume as the integer percent and checks the accepted range 0..100 on it; a non-integer percent is not modelled.
- Local storage holds strings written by `toString` and read by `parseFloat`/`parseInt`. The model stores the typed values instead. An empty stored string is falsy and is skipped like an absent key (stores/usePlaylistStore.ts:46 and :50), which is what `None` models. Malformed stored numbers, which parse to NaN, are not modelled.
- Numbers are modelled as unbounded `int` and `real` and printed in plain decimal. That matches JavaScript only for values a double holds exactly and below 10^21 in magnitude; from 10^21 on `toString` and template literals switch to exponent notation, so `PlaylistStore.RestoreAfterUpdateVolume` and `Duration.FormatDuration` hold in the model there but not in the source.
- Duration.FormatDuration: matches `formatDuration` only below 60 * 2^53 seconds (about 5.4 * 10^17). The source computes `Math.floor(seconds / 60)` with floating-point division (utils/index.ts:2), and from that size on the quotient is rounded before the floor (540431955284459584 seconds gives minutes 9007199254740994 in the source and 9007199254740993 in the model). `Duration.FormatDurationRoundTrip` and `Duration.FormatDurationInjective` therefore hold for the source only below that bound.
- Setting `src` on a real media element runs the element's load algorithm. The model keeps its effect on the fields it has (`AudioControls.LoadSource`: playback stops and the position goes to 0). The network fetch, ready state and events of that algorithm are not modelled.
- `next` and `previous` require a non-empty playlist. On an empty playlist `findIndex` never calls its callback and gives -1, so the chosen index is 0 (for `previous`, -1) and the chosen track is `undefined`. `playTrack(undefined)` then sets the current track to `undefined` and the state to 'play', and throws when it reads the track's id (stores/usePlaylistStore.ts:58). That partial update is not modelled.
- `formatDuration` on non-integer or negative durations is not modelled, because its output there is not `m:ss`.
- `getFormattedDate` (utils/index.ts:9-17) is locale-dependent date formatting.
- The track type definitions (`~/types`) are not part of this model. `Track` carries the catalogue fields the player uses.
- `nuxt.config.ts`, `tailwind.config.ts` and `app.config.ts` are configuration with no logic.
- Pinia and Vue reactivity (`defineStore`, `ref`, `computed`) are replaced by explicit records passed in and returned.

=== FILE: audio_controls.dfy ===
/**
 The audio controls: the playback controller that binds an audio element
 to the playlist store. The element is an abstract device record, the
 controller's own `audioState` ref is a cell separate from the store's,
 and each control is a pure transition on the whole `Controls` value.
 */
module AudioControls {
  import opened Options
  import opened Tracks
  import opened PlaylistStore

  /** The HTML audio element: its source, playback position, volume (as an
      integer percentage) and whether playback has been started. Assigning a
      source runs the media load algorithm, which stops playback and
      rewinds the position to 0. */
  datatype Device = Device(src: string, currentTime: real, volume: int, playing: bool)

  /** The element after a source is assigned: the load algorithm leaves it
      stopped at position 0, with its volume kept. */
  function LoadSource(d: Device, src: string): (r: Device)
    ensures r.src == src && r.currentTime == 0.0 && !r.playing
    ensures r.volume == d.volume
  {
    d.(src := src, currentTime := 0.0, playing := false)
  }

  /** The store session, the audio element when one is mounted, and the
      controller's own audio-state ref. */
  datatype Controls = Controls(session: Session, player: Option<Device>, audioState: AudioState)

  /** The `track` computed: the store's current track, or else the first
      track of the playlist, or nothing when both are missing. */
  function EffectiveTrack(s: State): (r: Option<Track>)
    ensures s.currentTrack.Some? ==> r == s.currentTrack
    ensures s.currentTrack.None? ==> (r.Some? <==> |s.playlist| > 0)
    ensures s.currentTrack.None? && r.Some? ==> r.value == s.playlist[0]
  {
    if s.currentTrack.Some? then s.currentTrack
    else if |s.playlist| > 0 then Some(s.playlist[0])
    else None
  }

  /** In a consistent state the effective track, when there is one, belongs
      to the playlist. */
  lemma EffectiveTrackInPlaylist(s: State)
    requires Consistent(s)
    requires |s.playlist| > 0
    ensures EffectiveTrack(s).Some? && EffectiveTrack(s).value in s.playlist
  {
  }

  /** The getter of the `volume` computed. */
  function Volume(c: Controls): int {
    c.session.state.currentVolume
  }

  /** The element's volume is a fraction in [0, 1], assigned as the
      percentage divided by 100: only 0 to 100 percent is accepted, and
      assigning any other level throws. */
  predicate AcceptsVolume(v: int) {
    0 <= v <= 100
  }

  /** The setter of the `volume` computed: the store records exactly `v`;
      then a mounted element is set to the same level, or, when it rejects
      the level, keeps its old one and the setter throws. */
  function SetVolume(c: Controls, v: int): (r: Controls)
    ensures r.session == UpdateCurrentVolume(c.session, v)
    ensures r.player.Some? <==> c.player.Some?
    ensures r.player.Some? && AcceptsVolume(v) ==> r.player.value == c.player.value.(volume := v)
    ensures r.player.Some? && !AcceptsVolume(v) ==> r.player == c.player
    ensures r.audioState == c.audioState
  {
    var d := if c.player.Some? && AcceptsVolume(v) then Some(c.player.value.(volume := v)) else c.player;
    c.(session := UpdateCurrentVolume(c.session, v), player := d)
  }

  /** Setting the volume and reading it back gives the value set, whether or
      not an element is mounted. */
  lemma SetThenGetVolume(c: Controls, v: int)
    ensures Volume(SetVolume(c, v)) == v
    ensures SetVolume(c, v).session.storage.currentTrackVolume == Some(v)
  {
  }

  /** `initAudioPlayer` without its event listeners: restore the store from
      local storage, then prime a mounted element with the effective track,
      the volume and the restored time, but only when there is a track and
      the volume is non-zero (a volume of 0 is falsy). A restored volume the
      element rejects throws right after the source is set, so the element
      is left loaded, stopped at 0. Playback is not started. */
  function InitAudioPlayer(c: Controls): (r: Controls)
    ensures r.session == LoadFromLocalStorage(c.session)
    ensures r.audioState == c.audioState
    ensures r.player.Some? <==> c.player.Some?
    ensures var s := r.session.state;
            var primed := c.player.Some? && EffectiveTrack(s).Some? && s.currentVolume != 0;
            && (primed && AcceptsVolume(s.currentVolume) ==>
                  r.player.value == Device(EffectiveTrack(s).value.audio, s.currentTime, s.currentVolume, false))
            && (primed && !AcceptsVolume(s.currentVolume) ==>
                  r.player.value == Device(EffectiveTrack(s).value.audio, 0.0, c.player.value.volume, false))
            && (!primed ==> r.player == c.player)
  {
    var loaded := LoadFromLocalStorage(c.session);
    var track := EffectiveTrack(loaded.state);
    var vol := loaded.state.currentVolume;
    if c.player.Some? && track.Some? && vol != 0 then
      var withSource := LoadSource(c.player.value, track.value.audio);
      if !AcceptsVolume(vol) then
        // the volume assignment throws
        Controls(loaded, Some(withSource), c.audioState)
      else
        var d := withSource.(volume := vol, currentTime := loaded.state.currentTime);
        Controls(loaded, Some(d), c.audioState)
    else
      Controls(loaded, c.player, c.audioState)
  }

  /** With a restored volume of 0 the element is left untouched by
      initialisation, even when there is a track to prime it with. */
  lemma InitSkipsPrimingWhenMuted(c: Controls)
    requires LoadFromLocalStorage(c.session).state.currentVolume == 0
    ensures InitAudioPlayer(c).player == c.player
  {
  }

  /** `play`: when an element is mounted and there is an effective track,
      the element is loaded with that track and seeked to the store's time
      BEFORE the store records the track as playing (so the stored time is
      reset afterwards, not the seek). The volume setter is invoked with the
      store's own volume, which writes it to storage; when the element
      rejects that volume the setter throws and `play` stops there, with
      the element loaded (and so stopped) but not started, and `playTrack`
      not performed.
      Without an element or a track nothing happens. */
  function Play(c: Controls): (r: Controls)
    ensures c.player.None? || EffectiveTrack(c.session.state).None? ==> r == c
    ensures c.player.Some? && EffectiveTrack(c.session.state).Some? && !AcceptsVolume(c.session.state.currentVolume) ==>
              var s := c.session.state;
              var t := EffectiveTrack(s).value;
              && r.audioState == Playing
              && r.session == UpdateCurrentVolume(c.session, s.currentVolume)
              && r.session.state == s
              && r.player == Some(Device(t.audio, s.currentTime, c.player.value.volume, false))
    ensures c.player.Some? && EffectiveTrack(c.session.state).Some? && AcceptsVolume(c.session.state.currentVolume) ==>
              var s := c.session.state;
              var t := EffectiveTrack(s).value;
              && r.audioState == Playing
              && r.session == PlayTrack(UpdateCurrentVolume(c.session, s.currentVolume), t)
              && r.session.state.audioState == Playing
              && r.session.state.currentTrack == Some(t)
              && r.session.state.playlist == s.playlist
              && r.session.state.currentTime == s.currentTime
              && r.session.state.currentVolume == s.currentVolume
              && r.session.storage.currentTrackId == Some(t.id)
              && r.session.storage.currentTrackTime == Some(0.0)
              && r.session.storage.currentTrackVolume == Some(s.currentVolume)
              && r.session.storage.audioState == Some(Playing)
              && r.player == Some(Device(t.audio, s.currentTime, s.currentVolume, true))
  {
    var track := EffectiveTrack(c.session.state);
    if c.player.None? || track.None? then c
    else
      var primed := LoadSource(c.player.value, track.value.audio).(currentTime := c.session.state.currentTime);
      var c1 := SetVolume(c.(audioState := Playing, player := Some(primed)), c.session.state.currentVolume);
      if !AcceptsVolume(c.session.state.currentVolume) then
        // the volume setter throws: play() and playTrack are never reached
        c1
      else
        var c2 := c1.(player := Some(c1.player.value.(playing := true)));
        // the computed `track` is read again after the awaited play()
        c2.(session := PlayTrack(c2.session, EffectiveTrack(c2.session.state).value))
  }

  /** A store volume the element rejects (150, say) makes `play` throw:
      the element is loaded with the track, which stops it, but never
      started, and the store does not switch tracks or record the track as
      playing. */
  lemma PlayRejectsOutOfRangeVolume(c: Controls)
    requires c.player.Some? && EffectiveTrack(c.session.state).Some?
    requires c.session.state.currentVolume > 100
    ensures !Play(c).player.value.playing
    ensures Play(c).session.state.currentTrack == c.session.state.currentTrack
    ensures Play(c).session.storage.currentTrackId == c.session.storage.currentTrackId
    ensures Play(c).session.storage.currentTrackVolume == Some(c.session.state.currentVolume)
  {
  }

  /** Resuming the last session: after initialisation restores a saved time,
      `play` seeks the element to that time and starts it, while the stored
      time is reset to 0 and the in-memory time keeps the saved one. */
  lemma InitThenPlayResumes(c: Controls, saved: real)
    requires c.player.Some?
    requires c.session.storage.currentTrackTime == Some(saved)
    requires EffectiveTrack(LoadFromLocalStorage(c.session).state).Some?
    requires AcceptsVolume(LoadFromLocalStorage(c.session).state.currentVolume)
    ensures var r := Play(InitAudioPlayer(c));
            && r.player.Some?
            && r.player.value.currentTime == saved
            && r.player.value.playing
            && r.session.state.currentTime == saved
            && r.session.storage.currentTrackTime == Some(0.0)
  {
  }

  /** `pause`: unconditionally mark both states paused and pause a mounted
      element; its position and every stored key but the state are kept. */
  function Pause(c: Controls): (r: Controls)
    ensures r.audioState == Paused
    ensures r.session == PauseTrack(c.session)
    ensures r.player.Some? <==> c.player.Some?
    ensures r.player.Some? ==> !r.player.value.playing
    ensures r.player.Some? ==> r.player.value == c.player.value.(playing := false)
  {
    var d := if c.player.Some? then Some(c.player.value.(playing := false)) else None;
    Controls(PauseTrack(c.session), d, Paused)
  }

  /** `stop`: a no-op without an element or a track; otherwise the element
      is paused and rewound and the store is stopped. */
  function Stop(c: Controls): (r: Controls)
    ensures c.player.None? || EffectiveTrack(c.session.state).None? ==> r == c
    ensures c.player.Some? && EffectiveTrack(c.session.state).Some? ==>
              && r.audioState == Stopped
              && r.session == StopTrack(c.session)
              && r.session.state.currentTime == 0.0
              && r.player == Some(c.player.value.(playing := false, currentTime := 0.0))
  {
    if c.player.None? || EffectiveTrack(c.session.state).None? then c
    else
      var d := c.player.value.(playing := false, currentTime := 0.0);
      Controls(StopTrack(c.session), Some(d), Stopped)
  }

  /** The successor index of `next`: one past `i`, wrapping to 0 past the
      end; a track that was not found (-1) goes to 0. */
  function NextIndex(i: int, n: nat): (r: nat)
    requires 0 < n
    requires -1 <= i < n
    ensures r < n
  {
    if i + 1 >= n then 0 else i + 1
  }

  /** The successor index is `(i + 1) mod n`, the not-found index included. */
  lemma NextIndexIsSuccessorMod(i: int, n: nat)
    requires 0 < n
    requires -1 <= i < n
    ensures NextIndex(i, n) == (i + 1) % n
  {
  }

  /** The predecessor index of `previous`: one before `i`, wrapping to the
      last index when that is negative, which includes the not-found case
      -1 (whose predecessor -2 also wraps to the last index). */
  function PrevIndex(i: int, n: nat): (r: nat)
    requires 0 < n
    requires -1 <= i < n
    ensures r < n
    ensures i == -1 ==> r == n - 1
  {
    if i - 1 < 0 then n - 1 else i - 1
  }

  /** On a found index the predecessor index is `(i - 1 + n) mod n`. */
  lemma PrevIndexIsPredecessorMod(i: int, n: nat)
    requires 0 < n
    requires 0 <= i < n
    ensures PrevIndex(i, n) == (i - 1 + n) % n
  {
  }

  /** `previous` undoes `next` on every found index. */
  lemma PrevUndoesNext(i: int, n: nat)
    requires 0 <= i < n
    ensures PrevIndex(NextIndex(i, n), n) == i
    ensures NextIndex(PrevIndex(i, n), n) == i
  {
  }

  /** The index in the playlist of the effective track (-1 if absent). */
  function CurrentIndex(s: State): (r: int)
    requires |s.playlist| > 0
    ensures -1 <= r < |s.playlist|
    ensures r == -1 <==> NoIdBefore(s.playlist, EffectiveTrack(s).value.id, |s.playlist|)
    ensures 0 <= r ==> s.playlist[r].id == EffectiveTrack(s).value.id
  {
    FindIndex(s.playlist, EffectiveTrack(s).value.id)
  }

  /** Record `t` as the track to play and load it into a mounted element,
      which leaves the element stopped at position 0; then start it exactly
      when `start` (playback requested) is set. */
  function SwitchTo(c: Controls, t: Track, start: bool): (r: Controls)
    ensures r.session == PlayTrack(c.session, t)
    ensures r.audioState == c.audioState
    ensures r.player.Some? <==> c.player.Some?
    ensures r.player.Some? ==> r.player.value.src == t.audio && r.player.value.currentTime == 0.0
    ensures r.player.Some? ==> r.player.value.volume == c.player.value.volume
    ensures r.player.Some? ==> r.player.value.playing == start
  {
    var ses := PlayTrack(c.session, t);
    if c.player.Some? then
      var d := LoadSource(c.player.value, t.audio);
      c.(session := ses, player := Some(if start then d.(playing := true) else d))
    else
      c.(session := ses)
  }

  /** `next(playNext)`: select the track after the effective one, wrapping
      around; loading it stops the element, which is then started iff the
      controller's own state is `Playing` or `playNext` is set. The playlist
      must be non-empty: the source dereferences the effective track and the
      chosen one. */
  function Next(c: Controls, playNext: bool): (r: Controls)
    requires |c.session.state.playlist| > 0
    ensures var p := c.session.state.playlist;
            var t := p[NextIndex(CurrentIndex(c.session.state), |p|)];
            && r.session.state.currentTrack == Some(t)
            && r.session.state.playlist == p
            && r.session.state.audioState == Playing
            && r.session.storage.currentTrackId == Some(t.id)
            && r.session.storage.currentTrackTime == Some(0.0)
            && r.session == PlayTrack(c.session, t)
            && r.session.state.currentTime == c.session.state.currentTime
            && r.audioState == c.audioState
            && (r.player.Some? <==> c.player.Some?)
            && (r.player.Some? ==> r.player.value.src == t.audio && r.player.value.currentTime == 0.0)
            && (r.player.Some? ==> r.player.value.volume == c.player.value.volume)
            && (r.player.Some? ==> r.player.value.playing == (c.audioState == Playing || playNext))
  {
    var p := c.session.state.playlist;
    var nextTrack := p[NextIndex(CurrentIndex(c.session.state), |p|)];
    SwitchTo(c, nextTrack, c.audioState == Playing || playNext)
  }

  /** `previous`: select the track before the effective one, wrapping
      around; loading it stops the element, which is then started iff the
      controller's own state is `Playing`. The playlist must be non-empty, as
      for `next`. */
  function Previous(c: Controls): (r: Controls)
    requires |c.session.state.playlist| > 0
    ensures var p := c.session.state.playlist;
            var t := p[PrevIndex(CurrentIndex(c.session.state), |p|)];
            && r.session.state.currentTrack == Some(t)
            && r.session.state.playlist == p
            && r.session.state.audioState == Playing
            && r.session.storage.currentTrackId == Some(t.id)
            && r.session.storage.currentTrackTime == Some(0.0)
            && r.session == PlayTrack(c.session, t)
            && r.session.state.currentTime == c.session.state.currentTime
            && r.audioState == c.audioState
            && (r.player.Some? <==> c.player.Some?)
            && (r.player.Some? ==> r.player.value.src == t.audio && r.player.value.currentTime == 0.0)
            && (r.player.Some? ==> r.player.value.volume == c.player.value.volume)
            && (r.player.Some? ==> r.player.value.playing == (c.audioState == Playing))
  {
    var p := c.session.state.playlist;
    var previousTrack := p[PrevIndex(CurrentIndex(c.session.state), |p|)];
    SwitchTo(c, previousTrack, c.audioState == Playing)
  }

  // ---------------------------------------------------------------------
  // Navigation properties
  // ---------------------------------------------------------------------

  /** In a consistent state over distinct ids, the current index is the
      position of the effective track. */
  lemma CurrentIndexLocates(s: State)
    requires |s.playlist| > 0
    requires DistinctIds(s.playlist)
    requires Consistent(s)
    ensures 0 <= CurrentIndex(s) && s.playlist[CurrentIndex(s)] == EffectiveTrack(s).value
  {
    FindIndexOfMember(s.playlist, EffectiveTrack(s).value);
  }

  /** `next` applied `k` times in a row. */
  function NextTimes(c: Controls, playNext: bool, k: nat): (r: Controls)
    requires |c.session.state.playlist| > 0
    ensures r.session.state.playlist == c.session.state.playlist
  {
    if k == 0 then c else Next(NextTimes(c, playNext, k - 1), playNext)
  }

  /** The current track after `k` calls of `next`. */
  function TrackAfter(c: Controls, playNext: bool, k: nat): Option<Track>
    requires |c.session.state.playlist| > 0
  {
    NextTimes(c, playNext, k).session.state.currentTrack
  }

  /** The index `k` places after `i` in a playlist of `n` tracks, for
      `i + k` below `2 * n`. */
  function Ahead(i: nat, k: nat, n: nat): nat
    requires i < n && k <= n
  {
    if i + k < n then i + k else i + k - n
  }

  /** One more step ahead is the successor index of the previous step. */
  lemma AheadAdvances(i: nat, k: nat, n: nat)
    requires i < n && 1 <= k <= n
    ensures NextIndex(Ahead(i, k - 1, n), n) == Ahead(i, k, n)
  {
  }

  /** One `next` from the track at index `j` of a playlist with distinct
      ids selects the track at the successor index. */
  lemma NextFromIndex(c: Controls, playNext: bool, j: nat)
    requires |c.session.state.playlist| > 0
    requires DistinctIds(c.session.state.playlist)
    requires j < |c.session.state.playlist|
    requires c.session.state.currentTrack == Some(c.session.state.playlist[j])
    ensures Next(c, playNext).session.state.currentTrack ==
            Some(c.session.state.playlist[NextIndex(j, |c.session.state.playlist|)])
  {
    FindIndexOfDistinct(c.session.state.playlist, j);
  }

  /** Playback is on the track at index `i` of a non-empty playlist with
      distinct ids. */
  predicate StartsAt(c: Controls, i: nat) {
    && 0 < |c.session.state.playlist|
    && DistinctIds(c.session.state.playlist)
    && i < |c.session.state.playlist|
    && EffectiveTrack(c.session.state) == Some(c.session.state.playlist[i])
  }

  /** `k` calls of `next` from index `i` have reached the track `k` places
      further on. */
  predicate ReachedAhead(c: Controls, playNext: bool, i: nat, k: nat)
    requires StartsAt(c, i)
    requires k <= |c.session.state.playlist|
  {
    TrackAfter(c, playNext, k) == Some(c.session.state.playlist[Ahead(i, k, |c.session.state.playlist|)])
  }

  /** The first `next` from index `i` selects the track one place further on. */
  lemma NextTimesFirst(c: Controls, playNext: bool, i: nat)
    requires StartsAt(c, i)
    ensures ReachedAhead(c, playNext, i, 1)
  {
    FindIndexOfDistinct(c.session.state.playlist, i);
    assert NextTimes(c, playNext, 1) == Next(c, playNext);
  }

  /** If `k - 1` calls of `next` went `k - 1` places ahead of index `i`,
      `k` calls go `k` places ahead. */
  lemma NextTimesStep(c: Controls, playNext: bool, i: nat, k: nat)
    requires StartsAt(c, i)
    requires 1 < k <= |c.session.state.playlist|
    requires ReachedAhead(c, playNext, i, k - 1)
    ensures ReachedAhead(c, playNext, i, k)
  {
    var p := c.session.state.playlist;
    AheadAdvances(i, k, |p|);
    NextFromIndex(NextTimes(c, playNext, k - 1), playNext, Ahead(i, k - 1, |p|));
  }

  /** After `k` calls of `next` (1 <= k <= N) from the track at index `i`
      the current track is the one `k` places further on, wrapping past the
      end. */
  lemma {:induction false} NextTimesIndex(c: Controls, playNext: bool, i: nat, k: nat)
    requires StartsAt(c, i)
    requires 1 <= k <= |c.session.state.playlist|
    ensures ReachedAhead(c, playNext, i, k)
  {
    if k == 1 {
      NextTimesFirst(c, playNext, i);
    } else {
      NextTimesIndex(c, playNext, i, k - 1);
      NextTimesStep(c, playNext, i, k);
    }
  }

  /** With distinct ids, N successive calls of `next` on a playlist of N
      tracks come back to the track playback started from. */
  lemma NextCycleReturns(c: Controls, playNext: bool)
    requires |c.session.state.playlist| > 0
    requires DistinctIds(c.session.state.playlist)
    requires Consistent(c.session.state)
    ensures EffectiveTrack(NextTimes(c, playNext, |c.session.state.playlist|).session.state) ==
            EffectiveTrack(c.session.state)
  {
    CurrentIndexLocates(c.session.state);
    NextTimesIndex(c, playNext, CurrentIndex(c.session.state), |c.session.state.playlist|);
  }

  /** With distinct ids, `previous` right after `next` returns to the track
      playback was on. */
  lemma PreviousAfterNext(c: Controls, playNext: bool)
    requires |c.session.state.playlist| > 0
    requires DistinctIds(c.session.state.playlist)
    requires Consistent(c.session.state)
    ensures Previous(Next(c, playNext)).session.state.currentTrack == EffectiveTrack(c.session.state)
  {
    var p := c.session.state.playlist;
    CurrentIndexLocates(c.session.state);
    var i := CurrentIndex(c.session.state);
    FindIndexOfDistinct(p, NextIndex(i, |p|));
    PrevUndoesNext(i, |p|);
  }

  /** Playlist [A, B, C] with B current: `next` selects C, and a second
      `next` wraps around to A. */
  lemma NextScenario(a: Track, b: Track, cc: Track, c: Controls)
    requires a.id != b.id && b.id != cc.id && a.id != cc.id
    requires c.session.state.playlist == [a, b, cc]
    requires c.session.state.currentTrack == Some(b)
    ensures Next(c, false).session.state.currentTrack == Some(cc)
    ensures Next(Next(c, false), false).session.state.currentTrack == Some(a)
  {
    var p := [a, b, cc];
    assert DistinctIds(p);
    FindIndexOfDistinct(p, 1);
    FindIndexOfDistinct(p, 2);
  }

  /** Every control keeps the current track inside the playlist. */
  lemma ControlsKeepConsistent(c: Controls, playNext: bool, v: int)
    requires Consistent(c.session.state)
    ensures Consistent(InitAudioPlayer(c).session.state)
    ensures Consistent(SetVolume(c, v).session.state)
    ensures Consistent(Play(c).session.state)
    ensures Consistent(Pause(c).session.state)
    ensures Consistent(Stop(c).session.state)
    ensures |c.session.state.playlist| > 0 ==> Consistent(Next(c, playNext).session.state)
    ensures |c.session.state.playlist| > 0 ==> Consistent(Previous(c).session.state)
  {
  }
}

=== FILE: duration.dfy ===
/**
 `formatDuration` over whole seconds: minutes, a colon, and the remaining
 seconds zero-padded to two digits. Numbers are printed in plain decimal,
 which is how a template literal prints a non-negative integer below 10^21
 (from there on JavaScript switches to exponent notation). `ParseDuration`
 reads such a string back and is the inverse the round-trip lemma is stated
 against.
 */
module Duration {
  import opened Options

  predicate IsDigit(c: char) {
    '0' <= c <= '9'
  }

  predicate AllDigits(s: string) {
    forall i :: 0 <= i < |s| ==> IsDigit(s[i])
  }

  function DigitChar(d: nat): (c: char)
    requires d < 10
    ensures IsDigit(c)
    ensures c as int - '0' as int == d
  {
    ('0' as int + d) as char
  }

  function DigitValue(c: char): (d: nat)
    requires IsDigit(c)
    ensures d < 10
  {
    c as int - '0' as int
  }

  /** The decimal numeral of `n`, as `String(n)` prints it below 10^21: no
      sign and no leading zero. */
  function NatToString(n: nat): (s: string)
    ensures |s| >= 1 && AllDigits(s)
    ensures |s| == 1 <==> n < 10
    ensures |s| > 1 ==> s[0] != '0'
    decreases n
  {
    if n < 10 then [DigitChar(n)] else NatToString(n / 10) + [DigitChar(n % 10)]
  }

  /** The value of a string of decimal digits. */
  function StringToNat(s: string): nat
    requires AllDigits(s)
  {
    if |s| == 0 then 0 else StringToNat(s[..|s| - 1]) * 10 + DigitValue(s[|s| - 1])
  }

  /** Reading a printed number gives the number back. */
  lemma {:induction false} NatToStringRoundTrip(n: nat)
    ensures StringToNat(NatToString(n)) == n
    decreases n
  {
    var s := NatToString(n);
    if n >= 10 {
      NatToStringRoundTrip(n / 10);
      assert s[..|s| - 1] == NatToString(n / 10);
    }
  }

  /** The seconds field: `0` followed by the digit when below 10, the plain
      number otherwise. */
  function SecondsField(secs: nat): (r: string)
    ensures |r| >= 2 && AllDigits(r)
    ensures secs < 10 <==> r[0] == '0'
  {
    if secs < 10 then "0" + NatToString(secs) else NatToString(secs)
  }

  /** Below 60 the seconds field is exactly two digits and reads back as
      the number it prints. */
  lemma SecondsFieldTwoDigits(secs: nat)
    requires secs < 60
    ensures |SecondsField(secs)| == 2 && AllDigits(SecondsField(secs))
    ensures StringToNat(SecondsField(secs)) == secs
  {
    NatToStringRoundTrip(secs);
    if secs >= 10 {
      assert NatToString(secs) == NatToString(secs / 10) + [DigitChar(secs % 10)];
    } else {
      var f := SecondsField(secs);
      assert f[..1] == "0";
    }
  }

  /** `formatDuration(seconds)` for whole, non-negative `seconds`: the part
      before the last three characters is the minutes `seconds / 60` without
      leading zeros, then a colon, then two digits holding `seconds % 60`. */
  function FormatDuration(seconds: nat): (r: string)
    ensures |r| >= 4 && r[|r| - 3] == ':'
    ensures AllDigits(r[..|r| - 3]) && StringToNat(r[..|r| - 3]) == seconds / 60
    ensures |r| > 4 ==> r[0] != '0'
    ensures AllDigits(r[|r| - 2..]) && StringToNat(r[|r| - 2..]) == seconds % 60
  {
    var minutes := seconds / 60;
    var remaining := seconds % 60;
    var r := NatToString(minutes) + ":" + SecondsField(remaining);
    SecondsFieldTwoDigits(remaining);
    NatToStringRoundTrip(minutes);
    assert r[..|r| - 3] == NatToString(minutes);
    assert r[|r| - 2..] == SecondsField(remaining);
    r
  }

  /** Reads `m:ss` back: all-digit minutes, a colon, and two digits below 60. */
  function ParseDuration(s: string): (r: Option<nat>)
    ensures r.Some? ==> |s| >= 4 && s[|s| - 3] == ':'
  {
    if |s| < 4 || s[|s| - 3] != ':' then None
    else
      var minutes := s[..|s| - 3];
      var secs := s[|s| - 2..];
      if !AllDigits(minutes) || !AllDigits(secs) then None
      else if StringToNat(secs) >= 60 then None
      else Some(60 * StringToNat(minutes) + StringToNat(secs))
  }

  /** Parsing the formatted duration gives back the number of seconds. */
  lemma FormatDurationRoundTrip(seconds: nat)
    ensures ParseDuration(FormatDuration(seconds)) == Some(seconds)
  {
  }

  /** Distinct durations are formatted as distinct strings. */
  lemma FormatDurationInjective(a: nat, b: nat)
    requires FormatDuration(a) == FormatDuration(b)
    ensures a == b
  {
    FormatDurationRoundTrip(a);
    FormatDurationRoundTrip(b);
  }

  /** 65 seconds is "1:05". */
  lemma FormatDurationPadsSeconds()
    ensures FormatDuration(65) == "1:05"
  {
    assert NatToString(1) == "1";
    assert SecondsField(5) == "05";
  }

  /** 600 seconds is "10:00". */
  lemma FormatDurationWholeMinutes()
    ensures FormatDuration(600) == "10:00"
  {
    assert NatToString(10) == NatToString(1) + "0";
    assert SecondsField(0) == "00";
  }
}

=== FILE: options.dfy ===
/** A value that may be absent: JavaScript's `null`/`undefined`. */
module Options {

  datatype Option<+T> = None | Some(value: T)
}

=== FILE: playlist_store.dfy ===
/**
 The playlist store: the in-memory playback state and its mirror in the
 browser's local storage. Every action is a pure transition on a `Session`,
 the pair (in-memory state, local storage).

 Local storage holds strings under four keys; here each key holds a typed
 value or is absent (`None`). The numeric keys are written with
 `toString` and read with `parseFloat`/`parseInt`. `parseFloat` reads back
 every finite number `toString` prints, exponent forms included; `parseInt`
 reads back an integer volume only below 10^21, since from there on
 `toString` prints an exponent form such as "1e+21" of which `parseInt`
 keeps only the leading digits. The model keeps the numbers themselves.
 */
module PlaylistStore {
  import opened Options
  import opened Tracks

  /** The store's reactive state. `currentTime` is in seconds,
      `currentVolume` a percentage the store never clamps. */
  datatype State = State(
    playlist: seq<Track>,
    currentTrack: Option<Track>,
    currentTime: real,
    currentVolume: int,
    audioState: AudioState
  )

  /** The keys `currentTrackId`, `currentTrackTime`, `currentTrackVolume`
      and `audioState` of local storage. */
  datatype LocalStorage = LocalStorage(
    currentTrackId: Option<string>,
    currentTrackTime: Option<real>,
    currentTrackVolume: Option<int>,
    audioState: Option<AudioState>
  )

  datatype Session = Session(state: State, storage: LocalStorage)

  /** The state the store is created with. */
  const Initial: State := State([], None, 0.0, 40, Paused)

  /** Local storage in which the store has never written anything. */
  const EmptyStorage: LocalStorage := LocalStorage(None, None, None, None)

  /** The current track, when there is one, belongs to the playlist. */
  predicate Consistent(s: State) {
    s.currentTrack.Some? ==> s.currentTrack.value in s.playlist
  }

  /** The stored track id is a non-empty string (JavaScript truthiness) that
      names some track of the playlist. */
  predicate StoredIdResolves(ses: Session) {
    && ses.storage.currentTrackId.Some?
    && ses.storage.currentTrackId.value != ""
    && !NoIdBefore(ses.state.playlist, ses.storage.currentTrackId.value, |ses.state.playlist|)
  }

  /** `fetchPlaylist`, with the fetched catalogue passed in: the playlist is
      replaced wholesale and nothing else is touched, not even a current
      track that the new playlist no longer contains. */
  function FetchPlaylist(ses: Session, fetched: seq<Track>): (r: Session)
    ensures r.state.playlist == fetched
    ensures r.state.currentTrack == ses.state.currentTrack
    ensures r.state.currentTime == ses.state.currentTime
    ensures r.state.currentVolume == ses.state.currentVolume
    ensures r.state.audioState == ses.state.audioState
    ensures r.storage == ses.storage
  {
    ses.(state := ses.state.(playlist := fetched))
  }

  /** `loadFromLocalStorage`: restore the current track, time and volume
      from local storage. The stored audio state is never read back, and
      the action writes nothing. */
  function LoadFromLocalStorage(ses: Session): (r: Session)
    ensures r.storage == ses.storage
    ensures r.state.playlist == ses.state.playlist
    ensures r.state.audioState == ses.state.audioState
    ensures StoredIdResolves(ses) ==>
              r.state.currentTrack.Some? &&
              FirstWithId(ses.state.playlist, r.state.currentTrack.value, ses.storage.currentTrackId.value)
    ensures !StoredIdResolves(ses) ==> r.state.currentTrack == ses.state.currentTrack
    ensures ses.storage.currentTrackTime.Some? ==> r.state.currentTime == ses.storage.currentTrackTime.value
    ensures ses.storage.currentTrackTime.None? ==> r.state.currentTime == ses.state.currentTime
    ensures ses.storage.currentTrackVolume.Some? ==> r.state.currentVolume == ses.storage.currentTrackVolume.value
    ensures ses.storage.currentTrackVolume.None? ==> r.state.currentVolume == ses.state.currentVolume
  {
    var st := ses.state;
    var ls := ses.storage;
    var track :=
      if ls.currentTrackId.Some? && ls.currentTrackId.value != "" then
        match Find(st.playlist, ls.currentTrackId.value)
        case Some(t) => Some(t)
        case None => st.currentTrack
      else st.currentTrack;
    var time := if ls.currentTrackTime.Some? then ls.currentTrackTime.value else st.currentTime;
    var volume := if ls.currentTrackVolume.Some? then ls.currentTrackVolume.value else st.currentVolume;
    ses.(state := st.(currentTrack := track, currentTime := time, currentVolume := volume))
  }

  /** `playTrack`: select `t` and mark it playing. The stored time is reset
      to 0 but the in-memory time is left as it was. */
  function PlayTrack(ses: Session, t: Track): (r: Session)
    ensures r.state.currentTrack == Some(t)
    ensures r.state.audioState == Playing
    ensures r.state.playlist == ses.state.playlist
    ensures r.state.currentTime == ses.state.currentTime
    ensures r.state.currentVolume == ses.state.currentVolume
    ensures r.storage.currentTrackId == Some(t.id)
    ensures r.storage.currentTrackTime == Some(0.0)
    ensures r.storage.audioState == Some(Playing)
    ensures r.storage.currentTrackVolume == ses.storage.currentTrackVolume
  {
    Session(
      ses.state.(currentTrack := Some(t), audioState := Playing),
      ses.storage.(currentTrackId := Some(t.id), currentTrackTime := Some(0.0), audioState := Some(Playing)))
  }

  /** `pauseTrack`: only the audio state changes, in memory and in storage. */
  function PauseTrack(ses: Session): (r: Session)
    ensures r.state.audioState == Paused && r.storage.audioState == Some(Paused)
    ensures r.state.playlist == ses.state.playlist
    ensures r.state.currentTrack == ses.state.currentTrack
    ensures r.state.currentTime == ses.state.currentTime
    ensures r.state.currentVolume == ses.state.currentVolume
    ensures r.storage.currentTrackId == ses.storage.currentTrackId
    ensures r.storage.currentTrackTime == ses.storage.currentTrackTime
    ensures r.storage.currentTrackVolume == ses.storage.currentTrackVolume
  {
    Session(ses.state.(audioState := Paused), ses.storage.(audioState := Some(Paused)))
  }

  /** `stopTrack`: rewind to 0 and mark stopped, in memory and in storage. */
  function StopTrack(ses: Session): (r: Session)
    ensures r.state.currentTime == 0.0 && r.storage.currentTrackTime == Some(0.0)
    ensures r.state.audioState == Stopped && r.storage.audioState == Some(Stopped)
    ensures r.state.playlist == ses.state.playlist
    ensures r.state.currentTrack == ses.state.currentTrack
    ensures r.state.currentVolume == ses.state.currentVolume
    ensures r.storage.currentTrackId == ses.storage.currentTrackId
    ensures r.storage.currentTrackVolume == ses.storage.currentTrackVolume
  {
    Session(
      ses.state.(currentTime := 0.0, audioState := Stopped),
      ses.storage.(audioState := Some(Stopped), currentTrackTime := Some(0.0)))
  }

  /** `updateCurrentVolume`: the volume, in memory and in storage, becomes
      exactly `vol`; nothing else changes. */
  function UpdateCurrentVolume(ses: Session, vol: int): (r: Session)
    ensures r.state.currentVolume == vol && r.storage.currentTrackVolume == Some(vol)
    ensures r.state.playlist == ses.state.playlist
    ensures r.state.currentTrack == ses.state.currentTrack
    ensures r.state.currentTime == ses.state.currentTime
    ensures r.state.audioState == ses.state.audioState
    ensures r.storage.currentTrackId == ses.storage.currentTrackId
    ensures r.storage.currentTrackTime == ses.storage.currentTrackTime
    ensures r.storage.audioState == ses.storage.audioState
  {
    Session(ses.state.(currentVolume := vol), ses.storage.(currentTrackVolume := Some(vol)))
  }

  /** `updateCurrentTime`: the time, in memory and in storage, becomes
      exactly `time`; nothing else changes. */
  function UpdateCurrentTime(ses: Session, time: real): (r: Session)
    ensures r.state.currentTime == time && r.storage.currentTrackTime == Some(time)
    ensures r.state.playlist == ses.state.playlist
    ensures r.state.currentTrack == ses.state.currentTrack
    ensures r.state.currentVolume == ses.state.currentVolume
    ensures r.state.audioState == ses.state.audioState
    ensures r.storage.currentTrackId == ses.storage.currentTrackId
    ensures r.storage.currentTrackVolume == ses.storage.currentTrackVolume
    ensures r.storage.audioState == ses.storage.audioState
  {
    Session(ses.state.(currentTime := time), ses.storage.(currentTrackTime := Some(time)))
  }

  // ---------------------------------------------------------------------
  // Properties relating several actions
  // ---------------------------------------------------------------------

  /** A fresh store that restores from empty local storage keeps every
      documented default: no current track, time 0, volume 40, paused. */
  lemma RestoreWithoutSavedKeys(p: seq<Track>)
    ensures var r := LoadFromLocalStorage(FetchPlaylist(Session(Initial, EmptyStorage), p));
            && r.state.playlist == p
            && r.state.currentTrack == None
            && r.state.currentTime == 0.0
            && r.state.currentVolume == 40
            && r.state.audioState == Paused
            && r.storage == EmptyStorage
  {
  }

  /** A stored id that names no track of a freshly fetched playlist leaves the
      restored store without a current track. */
  lemma RestoreUnknownTrackId(p: seq<Track>, id: string)
    requires NoIdBefore(p, id, |p|)
    ensures var ses := Session(Initial.(playlist := p), EmptyStorage.(currentTrackId := Some(id)));
            LoadFromLocalStorage(ses).state.currentTrack == None
  {
  }

  /** `updateCurrentTime` is idempotent. */
  lemma UpdateCurrentTimeIdempotent(ses: Session, time: real)
    ensures UpdateCurrentTime(UpdateCurrentTime(ses, time), time) == UpdateCurrentTime(ses, time)
  {
  }

  /** Every action except `fetchPlaylist` keeps the current track inside the
      playlist; `playTrack` does so when the track it is given is itself
      in the playlist. */
  lemma ActionsKeepConsistent(ses: Session, t: Track, vol: int, time: real)
    requires Consistent(ses.state)
    ensures Consistent(LoadFromLocalStorage(ses).state)
    ensures t in ses.state.playlist ==> Consistent(PlayTrack(ses, t).state)
    ensures Consistent(PauseTrack(ses).state)
    ensures Consistent(StopTrack(ses).state)
    ensures Consistent(UpdateCurrentVolume(ses, vol).state)
    ensures Consistent(UpdateCurrentTime(ses, time).state)
  {
  }

  /** Persist, then restore: a later session over a playlist with distinct
      ids that restores from the storage `playTrack` wrote selects the same
      track again and starts it at 0. */
  lemma RestoreAfterPlayTrack(ses: Session, t: Track, later: State)
    requires DistinctIds(later.playlist)
    requires t in later.playlist
    requires t.id != ""
    ensures var r := LoadFromLocalStorage(Session(later, PlayTrack(ses, t).storage));
            r.state.currentTrack == Some(t) && r.state.currentTime == 0.0
  {
  }

  /** Persist, then restore: the time `updateCurrentTime` stored is the time
      any later session restores. */
  lemma RestoreAfterUpdateTime(ses: Session, time: real, later: State)
    ensures LoadFromLocalStorage(Session(later, UpdateCurrentTime(ses, time).storage)).state.currentTime == time
  {
  }

  /** Persist, then restore: the volume `updateCurrentVolume` stored is the
      volume any later session restores. */
  lemma RestoreAfterUpdateVolume(ses: Session, vol: int, later: State)
    ensures LoadFromLocalStorage(Session(later, UpdateCurrentVolume(ses, vol).storage)).state.currentVolume == vol
  {
  }

  /** Fetching a catalogue that no longer holds the current track, with a
      stored id that does not resolve in it, and then restoring leaves the
      store with a current track outside its playlist: neither action
      discards a stale track. */
  lemma FetchThenLoadKeepsStaleTrack(ses: Session, fetched: seq<Track>)
    requires ses.state.currentTrack.Some? && ses.state.currentTrack.value !in fetched
    requires !StoredIdResolves(FetchPlaylist(ses, fetched))
    ensures var r := LoadFromLocalStorage(FetchPlaylist(ses, fetched));
            r.state.currentTrack == ses.state.currentTrack && !Consistent(r.state)
  {
  }

  /** Fetching a catalogue and then restoring from storage whose id resolves
      in it makes the store consistent again, whatever track was current. */
  lemma FetchThenLoadResolvesStoredId(ses: Session, fetched: seq<Track>)
    requires StoredIdResolves(FetchPlaylist(ses, fetched))
    ensures var r := LoadFromLocalStorage(FetchPlaylist(ses, fetched));
            r.state.playlist == fetched && Consistent(r.state)
  {
  }

  /** After `playTrack` the stored time (0) and the in-memory time disagree
      whenever the in-memory time was not already 0: the action rewinds the
      persisted position only. */
  lemma PlayTrackLeavesTimeStale(ses: Session, t: Track)
    requires ses.state.currentTime != 0.0
    ensures var r := PlayTrack(ses, t);
            r.storage.currentTrackTime.Some? && r.storage.currentTrackTime.value != r.state.currentTime
  {
  }
}

=== FILE: tracks.dfy ===
/**
 Tracks, playlists and the playback status shared by the playlist store and
 the audio controls, together with the two lookups by track id that both of
 them perform (`Array.prototype.find` and `Array.prototype.findIndex` with the
 predicate `t.id === id`).
 */
module Tracks {
  import opened Options

  /** One playable item of the catalogue. Only `id` and `audio` take part in
      playback; the rest is display metadata. */
  datatype Track = Track(
    id: string,
    audio: string,
    name: string,
    artistName: string,
    duration: nat,
    releaseDate: string
  )

  /** The three playback states, stored as 'play', 'pause' and 'stop'. */
  datatype AudioState = Playing | Paused | Stopped

  /** No two tracks of the playlist share an id. */
  predicate DistinctIds(p: seq<Track>) {
    forall i, j :: 0 <= i < j < |p| ==> p[i].id != p[j].id
  }

  /** `t` is the first track of `p` whose id is `id`. */
  predicate FirstWithId(p: seq<Track>, t: Track, id: string) {
    exists i :: 0 <= i < |p| && p[i] == t && t.id == id && NoIdBefore(p, id, i)
  }

  /** None of the first `n` tracks of `p` has id `id`. */
  predicate NoIdBefore(p: seq<Track>, id: string, n: int)
    requires n <= |p|
  {
    forall j :: 0 <= j < n ==> p[j].id != id
  }

  /** `findIndex(t => t.id === id)`: the index of the first track with that
      id, or -1 when there is none. */
  function FindIndex(p: seq<Track>, id: string): (r: int)
    ensures -1 <= r < |p|
    ensures r == -1 <==> NoIdBefore(p, id, |p|)
    ensures 0 <= r ==> p[r].id == id && NoIdBefore(p, id, r)
  {
    if |p| == 0 then -1
    else if p[0].id == id then 0
    else
      var k := FindIndex(p[1..], id);
      if k == -1 then -1 else k + 1
  }

  /** `find(t => t.id === id)`: the first track with that id, if any. */
  function Find(p: seq<Track>, id: string): (r: Option<Track>)
    ensures r.None? <==> NoIdBefore(p, id, |p|)
    ensures r.Some? ==> FirstWithId(p, r.value, id)
  {
    var k := FindIndex(p, id);
    if k == -1 then None else Some(p[k])
  }

  /** With distinct ids, looking up the id of the track at `i` finds `i`. */
  lemma FindIndexOfDistinct(p: seq<Track>, i: int)
    requires DistinctIds(p)
    requires 0 <= i < |p|
    ensures FindIndex(p, p[i].id) == i
  {
    assert !NoIdBefore(p, p[i].id, |p|) by { assert p[i].id == p[i].id; }
  }

  /** A track that is in a playlist with distinct ids is the track found by
      its own id. */
  lemma FindIndexOfMember(p: seq<Track>, t: Track)
    requires DistinctIds(p)
    requires t in p
    ensures 0 <= FindIndex(p, t.id) && p[FindIndex(p, t.id)] == t
  {
    var i :| 0 <= i < |p| && p[i] == t;
    FindIndexOfDistinct(p, i);
  }
}
